=== FILE: README.md ===
# MED-ASSIST chat routes, modelled in Dafny

MED-ASSIST is a small Flask service. It passes a user's health questions to a generative language
model (the *gateway*) and sends the gateway's structured JSON answer back to a browser. The
service keeps no state between requests. The interesting part is the `/gemini-interactive`
route, which handles one turn of a multi-turn conversation. It checks the request's shape,
answers a restart command itself, and otherwise calls the gateway. It then runs three failsafes
on the gateway's answer:

- a session-length cap at 100 messages forces the conversation to complete;
- an answer that is both complete and still asking for a follow-up loses the follow-up;
- a missing `Disclaimer` is filled in.

Any exception becomes a fixed fallback payload with status 500. The two single-turn routes
(`/gemini/<data>`, `/gemini_generic/<data>`) and the image route (`/gemini/image/<term>`) wrap
their collaborators in the same way.

The model is pure and functional:

- `Json` is a JSON value. `Int` and `Float` are separate so that Python truthiness and type names
  come out exactly as in Python.
- Each route is a function from its input (the decoded request body or the path segment) and its
  collaborator to a `Reply(status, body)`.
- Collaborators are function parameters: the gateway is `Call -> Outcome` and the image lookup is
  `(string, nat) -> Outcome`. An `Outcome` is `Returned(value)` or `Raised(Fault(kind, detail))`.
- `Interactive.Handle` is the whole `/gemini-interactive` route. `Interactive.Admit` decides
  everything that happens before the gateway is called: reject, restart, crash or forward.
  `Interactive.Finish` turns the gateway's outcome into the reply. A request for which `Admit`
  does not return `Forward` never reaches the gateway.

Files:

- `wrappers.dfy`: `Option`.
- `json.dfy`: the JSON value, Python truthiness, `dict.get`, type names.
- `text.dfy`: `str.strip`, `str.lower`, substring test and `str.replace(' ', '-')`.
- `service.dfy`: the disclaimer, `Reply`, `Outcome` and `Fault`.
- `interactive.dfy`: the conversation route.
- `single_turn.dfy`: the single-turn routes.
- `images.dfy`: the image route.

In several places the code does less than a reader might expect from the routes' comments or
from the shape of their replies. The model follows the code:

- A message that is empty once stripped is not rejected. It is forwarded to the gateway as `""`
  (`Interactive.BlankMessageForwarded`).
- The consistency failsafe's comment ("Clear the question too", line 155) suggests that a
  complete answer never carries a follow-up question. The code guarantees only that complete
  implies `needs_follow_up` is falsy. `follow_up_question` is blanked only when a failsafe
  fires, so a complete answer that does not ask for a follow-up keeps its question
  (`Interactive.CompleteAnswerKeepsQuestion`).
- The comment "Ensure standard disclaimer is present" (line 157) suggests that every answer
  ends with the standard text. In fact a disclaimer the gateway supplies is never replaced, even
  when it is empty or not a string (`Interactive.EmptyDisclaimerKept`).
- The 100-message cap does not apply to a restart command. A restart is answered as not complete
  however long the history is (`Interactive.RestartShortCircuits` has no length condition;
  `Interactive.LongSessionEndsComplete` requires a non-restart message).
- An image lookup that returns something other than a list gives `[]` with status 200, not
  placeholders with status 500 (`Images.ImageRoute`).
- The single-turn routes relay a dictionary answer as it is. A successful reply is not given a
  default `Disclaimer`.
- A truthy non-dictionary body is not always answered with 400. If it gets past the
  `'message' not in data` test (a list holding the string `"message"`, a string containing
  `message`) or is something `in` cannot search (a non-zero number, `true`), it fails inside the
  route's `try` block and is answered with the 500 fallback. A list without `"message"` or a
  string without the substring still gets 400. A `message` that is not a string fails on
  `.strip()` and gets the 500 fallback in the same way.

## Model

| member | source | states |
|---|---|---|
| `Json.Truthy` | venv/main.py:95 | no contract of its own; Python truthiness (None, false, zero, empty string, list or dict are falsy), used by the `not data` test and the failsafes' tests at lines 142, 148 and 152; its consequences are stated by `Interactive.BadRequestIffMalformed` and the failsafe rows |
| `Text.TrimStartSpec` | venv/main.py:98 | removing leading whitespace leaves a suffix of the input that starts with a non-space, and everything removed was whitespace |
| `Text.TrimEndSpec` | venv/main.py:98 | removing trailing whitespace leaves a prefix of the input that ends with a non-space, and everything removed was whitespace |
| `Text.TrimStartPadded` | venv/main.py:98 | any whitespace in front of a text that starts with a non-space is exactly what leading trimming removes |
| `Text.TrimEndPadded` | venv/main.py:98 | any whitespace after a text that ends with a non-space is exactly what trailing trimming removes |
| `Text.Strip` | venv/main.py:98 | no contract of its own; `str.strip()` is characterised by `Text.StripSpec` and the rows after it |
| `Text.StripSpec` | venv/main.py:98 | `strip()` yields the input minus its surrounding whitespace: a contiguous slice bordered only by whitespace, with non-space ends or empty |
| `Text.StripPadded` | venv/main.py:98 | stripping a word padded with arbitrary whitespace on both sides gives the word back |
| `Text.StripAllSpace` | venv/main.py:98 | a message of nothing but whitespace strips to the empty string |
| `Text.StripIdempotent` | venv/main.py:98 | stripping twice is the same as stripping once |
| `Text.Lower` | venv/main.py:110 | lower-casing keeps the length and lowers each character independently |
| `Text.LowerKeepsSpaces` | venv/main.py:110 | lower-casing never turns whitespace into a non-space or back, so a lowered command's ends are non-space in the original too |
| `Text.Contains` | venv/main.py:95 | Python's `'message' in s` on a string is true exactly when the text occurs at some offset |
| `Text.ReplaceSpaces` | venv/main.py:215 | `replace(' ', '-')` keeps the length, turns every ASCII space into a dash and keeps every other character |
| `Interactive.Admit` | venv/main.py:94-110 | validation rejects a request exactly when it is malformed in the sense of `Interactive.BadRequestIffMalformed` (falsy body, `'message' in data` false, bad history shape); it restarts exactly for a dictionary body with a string message, a well-shaped history and a stripped, lower-cased message among the four commands; it crashes exactly for a truthy body that is not malformed and is not a dictionary with a string message (a list holding "message", a string containing it, a non-zero number, `true`, or a non-string message) |
| `Interactive.Respond` | venv/main.py:95-191 | for a validation verdict: 400 exactly for a rejection, which alone carries no `data` payload; 200 exactly for a restart or a forwarded turn answered with a dictionary; 500 exactly for a crash or a forwarded turn whose gateway raises or returns a non-dictionary |
| `Interactive.Finish` | venv/main.py:126-191 | a forwarded turn gets status 200 exactly when the gateway answers with a dictionary and 500 otherwise, and the reply always carries a `data` payload (how completion depends on the history: `Interactive.FinishCompletion`) |
| `Interactive.Handle` | venv/main.py:93-191 | the route answers 400 exactly when validation rejects the request; 200 exactly for a restart command or a forwarded turn whose gateway answers with a dictionary; 500 exactly for a body that crashes validation or a forwarded turn whose gateway raises or returns a non-dictionary |
| `Interactive.BadRequestIffMalformed` | venv/main.py:94-102 | status 400 is returned exactly for a falsy body (missing, null or empty), a body for which `'message' in data` is false (a dictionary without the key, a list without the string, a string without the substring), or a string message whose `conversation_history` is neither null nor a list; such requests never reach the gateway and carry no `data` payload |
| `Interactive.GatewayOnlyWhenForwarded` | venv/main.py:95-126 | a request that validation does not forward gets the same reply whatever the gateway would do |
| `Interactive.ForwardedIff` | venv/main.py:95-126 | the gateway is called exactly for a dictionary body with a string message, a null/absent/list history and a non-restart message; it receives the stripped message and the history list, or None when absent or null |
| `Interactive.RestartPayloadFacts` | venv/main.py:113-123 | the canned restart payload says restarted, not complete, no follow-up, an empty question and the standard disclaimer |
| `Interactive.RestartShortCircuits` | venv/main.py:110-123 | a well-formed request whose stripped, lower-cased message is one of the four restart commands takes the restart branch and gets status 200 and exactly the canned payload (see `Interactive.RestartPayloadFacts`), without any gateway call, whatever the history's length |
| `Interactive.RestartIgnoresCaseAndPadding` | venv/main.py:98-110 | any capitalisation of a restart command, surrounded by any whitespace, restarts the conversation |
| `Interactive.CapLength` | venv/main.py:140-149 | below the cap, or for an answer already marked complete, nothing changes; otherwise complete=true, needs_follow_up=false and follow_up_question="" are set; can_provide_structured_response becomes true when is_medical_related is missing or truthy and is left as it was otherwise; every other key is untouched |
| `Interactive.FixConsistency` | venv/main.py:152-155 | when an answer is both complete and needs a follow-up, needs_follow_up becomes false and the question is blanked; otherwise nothing changes; afterwards complete implies no follow-up; only those two keys can change |
| `Interactive.EnsureDisclaimer` | venv/main.py:158 | afterwards a Disclaimer is present; an existing one keeps its value and a missing one becomes the standard text; no other key changes |
| `Interactive.PostProcess` | venv/main.py:136-158 | the processed answer never says both complete and needs-follow-up, is complete exactly when the answer was complete or the conversation has reached 100 messages, has the disclaimer rule, and agrees with the gateway on every key the failsafes do not write; below the cap, and unless the answer claims both complete and needs-follow-up, every key but `Disclaimer` is the gateway's |
| `Interactive.CapForcesCompletion` | venv/main.py:142-149 | when the cap fires, the final payload (after all failsafes) is complete with no follow-up and an empty question, with the structured-response rule above |
| `Interactive.CapForcesCompletionOnRoute` | venv/main.py:140-171 | when the cap fires on a forwarded turn answered with a dictionary not already complete, the route's 200 reply is complete with needs_follow_up false and an empty question; can_provide_structured_response is true unless is_medical_related is present and falsy, in which case it is the gateway's |
| `Interactive.QuietTurnPassesThrough` | venv/main.py:140-171 | below the cap, a dictionary answer that does not claim both complete and needs-follow-up is returned with 200 and every key but `Disclaimer` as the gateway gave it, so its follow-up request and question reach the client |
| `Interactive.FallbackPayloadFacts` | venv/main.py:179-191 | the fallback payload has exactly the nine template keys: complete, no follow-up, empty question, medical, prompt "Yes", no structured response, standard disclaimer and the exception's text under `error` |
| `Interactive.GatewayFailureFallsBack` | venv/main.py:173-191 | if the gateway raises, or answers with a non-dictionary (raising the route's own ValueError, lines 132-134), the reply is the fallback payload for that exception with status 500 |
| `Interactive.FinishConsistent` | venv/main.py:132-171 | whatever the gateway does with a forwarded turn, the reply carries a payload in which complete implies no follow-up |
| `Interactive.CompletionExcludesFollowUp` | venv/main.py:152-155 | every non-400 reply carries a payload, and in every payload the route returns, complete implies needs_follow_up is falsy |
| `Interactive.TotalMessages` | venv/main.py:140 | no contract of its own; its count is pinned to the history's length by `Interactive.CompletionFollowsCap` |
| `Interactive.FinishCompletion` | venv/main.py:132-158 | a dictionary answer's reply is complete exactly when the answer was or the message count reaches 100; any other outcome ends in a complete fallback payload |
| `Interactive.CompletionFollowsCap` | venv/main.py:140-149 | for a forwarded turn answered with a dictionary, the reply is complete exactly when the answer was, or the history is a list holding 99 or more entries; below that the answer's own completion is kept |
| `Interactive.LongSessionEndsComplete` | venv/main.py:140-149 | a forwarded turn whose history already holds 99 or more entries comes back complete, whether the gateway answers, raises or returns garbage |
| `Interactive.DisclaimerAlwaysPresent` | venv/main.py:158 | every non-400 reply's payload has a Disclaimer: the gateway's own if it gave one with a dictionary answer, the standard text otherwise |
| `Interactive.AnswerPassesThrough` | venv/main.py:136-171 | a dictionary answer is returned with status 200, and every key outside the five the failsafes write (Symptoms, Remedies, medication, ...) is returned exactly as the gateway gave it |
| `Interactive.BlankMessageForwarded` | venv/main.py:95-98 | a message of only whitespace is not rejected: the gateway is called with the empty message |
| `Interactive.CompleteAnswerKeepsQuestion` | venv/main.py:152-155 | a complete answer with needs_follow_up=false keeps a non-empty follow_up_question |
| `Interactive.EmptyDisclaimerKept` | venv/main.py:158 | an empty Disclaimer from the gateway is kept, not replaced |
| `SingleTurn.PromptRoute` | venv/main.py:43-53 | an empty prompt gets 400 and the fixed payload without a gateway call; a dictionary answer gets 200 and is relayed unchanged; a raise or a non-dictionary gets 500 with the apology carrying the exception's text and the standard disclaimer |
| `SingleTurn.GenericRoute` | venv/main.py:62-83 | an empty prompt gets 400 without a gateway call; status 200 exactly when the answer is a dictionary holding is_medical_related_prompt, relayed unchanged; otherwise 500 with exactly the eight keys of the default classification (Symptoms ".", Remedies, Precautions and Guidelines "", prompt "No", medication [], standard disclaimer, and "An error occurred: " with the exception's text); every payload carries is_medical_related_prompt |
| `Images.SafeTerm` | venv/main.py:215 | the sanitised term is the search term's first twenty characters with spaces turned into dashes, so it contains no space and is at most twenty long |
| `Images.FallbackUrls` | venv/main.py:214-220 | the placeholder list has exactly three entries, the n-th naming error n and the sanitised term |
| `Images.ImageRoute` | venv/main.py:199-224 | an empty term gets 400 and [] without a lookup; status 200 exactly when the term is non-empty and the lookup returns; a list from the lookup is relayed, any other value becomes []; status 500 exactly when the lookup raises, with exactly three placeholders |

## Left out

- Flask application construction, the route decorators, the `/` page (`render_template`) and `app.run`: framework plumbing with no logic of the service's own.
- All `print` and `traceback` logging. The model assumes that printing never fails. In Python, a `print` inside a route's `try` block (lines 105-107 and 161-168) can raise. For example, a message holding a lone surrogate such as `"\ud800"` makes `print` raise `UnicodeEncodeError` under the default stdout error handler, and the route then answers with the 500 fallback. Dafny strings cannot hold surrogates, so such inputs are outside the model.
- The real `gemini_text`, `gemini_generic`, `gemini_interactive` and `get_image_urls` live in `functions.py`, which is not part of this model. They are function parameters here, and so are their exceptions. The stand-ins defined when that import fails are not modelled.
- The gateway is assumed not to modify the history list it is given. Line 126 passes the request's own list object to `gemini_interactive`, and line 140 counts it only after the call, so a gateway that appended to it would move the 100-message cap. `Interactive.TotalMessages` counts the list as it was sent.
- `STANDARD_DISCLAIMER` normally comes from `functions.py`, which is not part of this model. The model uses the text the service defines when that import fails (line 12).
- `request.json` raising on a body that is not declared or not valid JSON: that behaviour belongs to the Flask version. The model starts from the decoded body, and a missing body is `null`.
- `jsonify` failing on a gateway value that is not JSON-serialisable: collaborator answers are JSON values here.
- The wording of Python's own exception messages (`TypeError`, `AttributeError`) and of `type(e).__name__` is approximated. The model keeps the exception class and a message of the same form. The fallback payload's structure does not depend on it.
- JSON `NaN` and `Infinity` are not modelled: floats are `real` numbers.
- The image route's second `try` around the placeholder list (lines 221-222) is left out. Building the list cannot raise for a string term.
- Text.Lower: lowers only the ASCII letters, not the whole Unicode range that `str.lower` covers. The only non-ASCII characters that lower to ASCII letters are KELVIN SIGN (to `k`) and LATIN CAPITAL LETTER I WITH DOT ABOVE (to `i` plus a combining dot). Neither can make one of the four ASCII restart commands, so restart detection is unaffected.
- Whitespace for `str.strip()` is the set `str.isspace()` accepts, listed as code points in `Text.IsSpace`. Nothing else about Unicode (normalisation, case folding) is modelled.

=== FILE: images.dfy ===
/**
 The `/gemini/image/<search_term>` route: a list of image URLs from the external image lookup.
 The lookup is a parameter. An empty term is refused with an empty list; a lookup that raises is
 replaced by placeholder URLs that name a sanitised copy of the term.
 */
module Images {
  import opened Json
  import opened Text
  import opened Service

  /** How many images the route asks for. */
  const NUM_RESULTS: nat := 3

  /** How much of the search term a placeholder URL repeats. */
  const SAFE_TERM_LENGTH: nat := 20

  const PLACEHOLDER: string := "https://via.placeholder.com/150/FF0000/FFFFFF?text=Error+"

  /** `s[:n]` on a list or a string. */
  function Take<T>(s: seq<T>, n: nat): (r: seq<T>)
    ensures |r| == if |s| <= n then |s| else n
    ensures r == s[..|r|]
  {
    if |s| <= n then s else s[..n]
  }

  /**
   `term.replace(' ', '-')[:20]`: the term with its spaces turned into dashes, cut to twenty
   characters, so it holds no space.
   */
  function SafeTerm(term: string): (r: string)
    ensures |r| == if |term| <= SAFE_TERM_LENGTH then |term| else SAFE_TERM_LENGTH
    ensures forall i :: 0 <= i < |r| ==> r[i] == if term[i] == ' ' then '-' else term[i]
    ensures ' ' !in r
  {
    Take(ReplaceSpaces(term), SAFE_TERM_LENGTH)
  }

  /** The n-th placeholder URL for a sanitised term. */
  function ErrorUrl(n: nat, safe: string): string
    requires 1 <= n <= 9
  {
    PLACEHOLDER + [('0' as int + n) as char] + "+" + safe
  }

  /** The placeholder list returned when the lookup raises: one URL per requested image. */
  function FallbackUrls(term: string): (r: seq<Json>)
    ensures |r| == NUM_RESULTS
    ensures forall i :: 0 <= i < |r| ==> r[i] == Str(ErrorUrl(i + 1, SafeTerm(term)))
  {
    var safe := SafeTerm(term);
    Take([Str(ErrorUrl(1, safe)), Str(ErrorUrl(2, safe)), Str(ErrorUrl(3, safe))], NUM_RESULTS)
  }

  /**
   GET `/gemini/image/<search_term>`. An empty term gives an empty list with status 400 and no
   lookup; a list from the lookup is relayed; any other value becomes an empty list, still with
   status 200; an exception gives the three placeholders with status 500.
   */
  function ImageRoute(term: string, lookup: (string, nat) -> Outcome): (r: Reply)
    ensures r.status == 400 <==> term == ""
    ensures term == "" ==> r.body == Arr([])
    ensures r.status == 200 <==> term != "" && lookup(term, NUM_RESULTS).Returned?
    ensures r.status == 500 <==> term != "" && lookup(term, NUM_RESULTS).Raised?
    ensures r.status == 500 ==> r.body == Arr(FallbackUrls(term)) && |r.body.items| == NUM_RESULTS
    ensures r.status == 200 ==>
      var v := lookup(term, NUM_RESULTS).value;
      r.body == if v.Arr? then v else Arr([])
  {
    if term == "" then
      Reply(400, Arr([]))
    else
      match lookup(term, NUM_RESULTS)
      case Returned(v) => Reply(200, if v.Arr? then v else Arr([]))
      case Raised(_) => Reply(500, Arr(FallbackUrls(term)))
  }
}

=== FILE: interactive.dfy ===
/**
 The `/gemini-interactive` route: one turn of a multi-turn conversation. The server keeps no
 state between calls; each request carries the new message and the client's history, and the
 reply is computed in four steps: the request is validated, a restart command is answered
 without consulting the gateway, otherwise the gateway's answer is run through three failsafes,
 and any exception is turned into a fixed fallback payload with status 500.

 The gateway is a parameter (`Call -> Outcome`); a reply decided by `Admit` is one for which the
 gateway is never called.
 */
module Interactive {
  import opened Wrappers
  import opened Json
  import opened Text
  import opened Service

  // Keys of the request body.
  const MESSAGE: string := "message"
  const HISTORY: string := "conversation_history"

  // Keys of the interactive payload, besides those every route uses.
  const COMPLETE: string := "conversation_complete"
  const NEEDS_FOLLOW_UP: string := "needs_follow_up"
  const FOLLOW_UP_QUESTION: string := "follow_up_question"
  const IS_MEDICAL: string := "is_medical_related"
  const CAN_STRUCTURE: string := "can_provide_structured_response"
  const RESTARTED: string := "conversation_restarted"

  /** A conversation of this many messages, the current one included, is forced to complete. */
  const SESSION_CAP: int := 100

  /** Messages that, once stripped and lower-cased, reset the conversation. */
  const RESTART_COMMANDS: seq<string> := ["restart", "start over", "reset", "new conversation"]

  /** The keys the session-length failsafe may write. */
  const LENGTH_FAILSAFE_KEYS: set<string> := {COMPLETE, NEEDS_FOLLOW_UP, FOLLOW_UP_QUESTION, CAN_STRUCTURE}

  /** Every key post-processing may write; all others pass through from the gateway. */
  const WRITTEN: set<string> := LENGTH_FAILSAFE_KEYS + {DISCLAIMER}

  /** What the gateway is called with: the stripped message and the history, if one was sent. */
  datatype Call = Call(message: string, history: Option<seq<Json>>)

  /** Why a request is refused as the client's fault. */
  datatype Rejection = MissingMessage | BadHistory

  /**
   The verdict on a request before the gateway is consulted: refused, a restart, an exception
   raised while reading the body, or the call to make.
   */
  datatype Admission = Reject(why: Rejection) | Restart | Crash(fault: Fault) | Forward(call: Call)

  /** The status-400 reply for a refused request. */
  function RejectReply(why: Rejection): Reply {
    match why
    case MissingMessage =>
      Reply(400, Obj(map[ERROR := Str("Invalid request. JSON body with 'message' field is required.")]))
    case BadHistory =>
      Reply(400, Obj(map[ERROR := Str("Invalid request. 'conversation_history' must be a list or null.")]))
  }

  /** A refused request's reply is a bare error object, with nothing under "data". */
  lemma RejectCarriesNoData(why: Rejection)
    ensures Data(RejectReply(why)).None?
  {
    assert "data"[0] != ERROR[0];
  }

  /** The canned payload that tells the client to clear its history. */
  const RESTART_PAYLOAD: map<string, Json> := map[
    RESPONSE := Str("Okay, let's start a new conversation. How can I help with your health questions today?"),
    NEEDS_FOLLOW_UP := Bool(false),
    FOLLOW_UP_QUESTION := Str(""),
    IS_MEDICAL := Bool(true),
    IS_MEDICAL_PROMPT := Str("Yes"),
    CAN_STRUCTURE := Bool(false),
    COMPLETE := Bool(false),
    DISCLAIMER := Str(STANDARD_DISCLAIMER),
    RESTARTED := Bool(true)]

  /** The exception raised when the gateway answers with something other than a dictionary. */
  const MALFORMED_ANSWER: Fault := Fault("ValueError", "Invalid response format from conversation engine.")

  /** The exception `v.attr` raises when values of v's type have no such attribute. */
  function NoAttribute(v: Json, attr: string): Fault {
    Fault("AttributeError", "'" + TypeName(v) + "' object has no attribute '" + attr + "'")
  }

  /** The exception `x in v` raises when v is not a container. */
  function NotIterable(v: Json): Fault {
    Fault("TypeError", "argument of type '" + TypeName(v) + "' is not iterable")
  }

  /** The payload returned, with status 500, for any exception raised while handling a turn. */
  function FallbackPayload(f: Fault): map<string, Json> {
    map[
      RESPONSE := Str("I apologize, but an internal error occurred (" + f.kind + "). Please try again or restart the conversation."),
      NEEDS_FOLLOW_UP := Bool(false),
      FOLLOW_UP_QUESTION := Str(""),
      IS_MEDICAL := Bool(true),
      IS_MEDICAL_PROMPT := Str("Yes"),
      CAN_STRUCTURE := Bool(false),
      COMPLETE := Bool(true),
      DISCLAIMER := Str(STANDARD_DISCLAIMER),
      ERROR := Str(f.detail)]
  }

  function ErrorReply(f: Fault): Reply {
    DataReply(500, FallbackPayload(f))
  }

  /** `conversation_history` is absent, null or a list. */
  predicate HistoryShapeOk(m: map<string, Json>) {
    var h := Get(m, HISTORY, Null);
    h.Null? || h.Arr?
  }

  /** The history passed on to the gateway: the list, or None when absent or null. */
  function HistoryOf(m: map<string, Json>): Option<seq<Json>> {
    var h := Get(m, HISTORY, Null);
    if h.Arr? then Some(h.items) else None
  }

  predicate IsRestartCommand(message: string) {
    Lower(message) in RESTART_COMMANDS
  }

  /**
   Validation and restart detection, in the order the route performs them. A body that is a
   truthy non-dictionary gets past the `'message' not in data` test only when it is a list holding
   "message" or a string containing it, and then fails on `data.get`; numbers and `true` fail
   the membership test itself.
   */
  function Admit(body: Json): (r: Admission)
    ensures r.Reject? <==> Malformed(body)
    ensures r.Restart? <==>
      && body.Obj? && MESSAGE in body.fields && body.fields[MESSAGE].Str?
      && HistoryShapeOk(body.fields) && IsRestartCommand(Strip(body.fields[MESSAGE].s))
    ensures r.Crash? <==> Truthy(body) && !Malformed(body) && !(body.Obj? && body.fields[MESSAGE].Str?)
  {
    if !Truthy(body) then
      Reject(MissingMessage)
    else
      match body
      case Obj(m) =>
        if MESSAGE !in m then
          Reject(MissingMessage)
        else if !m[MESSAGE].Str? then
          Crash(NoAttribute(m[MESSAGE], "strip"))
        else
          var message := Strip(m[MESSAGE].s);
          if !HistoryShapeOk(m) then
            Reject(BadHistory)
          else if IsRestartCommand(message) then
            Restart
          else
            Forward(Call(message, HistoryOf(m)))
      case Arr(a) =>
        if Str(MESSAGE) in a then Crash(NoAttribute(body, "get")) else Reject(MissingMessage)
      case Str(s) =>
        if Contains(s, MESSAGE) then Crash(NoAttribute(body, "get")) else Reject(MissingMessage)
      case _ =>
        Crash(NotIterable(body))
  }

  /** The history plus the current message; an absent or empty history counts as none. */
  function TotalMessages(history: Option<seq<Json>>): nat {
    (if history.Some? then |history.value| else 0) + 1
  }

  /**
   The session-length failsafe. An answer not already marked complete, in a conversation that has
   reached the cap, is forced complete with no follow-up; it is also marked as able to give a
   structured response unless it says it is not medical.
   */
  function CapLength(m: map<string, Json>, total: int): (r: map<string, Json>)
    ensures total < SESSION_CAP || Truthy(Get(m, COMPLETE, Bool(false))) ==> r == m
    ensures total >= SESSION_CAP && !Truthy(Get(m, COMPLETE, Bool(false))) ==>
      && COMPLETE in r && r[COMPLETE] == Bool(true)
      && NEEDS_FOLLOW_UP in r && r[NEEDS_FOLLOW_UP] == Bool(false)
      && FOLLOW_UP_QUESTION in r && r[FOLLOW_UP_QUESTION] == Str("")
      && (Truthy(Get(m, IS_MEDICAL, Bool(true))) ==> CAN_STRUCTURE in r && r[CAN_STRUCTURE] == Bool(true))
      && (!Truthy(Get(m, IS_MEDICAL, Bool(true))) ==> SameAt(m, r, CAN_STRUCTURE))
    ensures forall k :: k !in LENGTH_FAILSAFE_KEYS ==> SameAt(m, r, k)
  {
    if !Truthy(Get(m, COMPLETE, Bool(false))) && total >= SESSION_CAP then
      var forced := m[COMPLETE := Bool(true)][NEEDS_FOLLOW_UP := Bool(false)][FOLLOW_UP_QUESTION := Str("")];
      if Truthy(Get(forced, IS_MEDICAL, Bool(true))) then forced[CAN_STRUCTURE := Bool(true)] else forced
    else
      m
  }

  /**
   The consistency failsafe: an answer both complete and still asking for a follow-up loses the
   follow-up and its question. Nothing else is touched, so a complete answer that does not ask for
   a follow-up keeps whatever question it carries.
   */
  function FixConsistency(m: map<string, Json>): (r: map<string, Json>)
    ensures Truthy(Get(m, COMPLETE, Null)) && Truthy(Get(m, NEEDS_FOLLOW_UP, Null)) ==>
      && NEEDS_FOLLOW_UP in r && r[NEEDS_FOLLOW_UP] == Bool(false)
      && FOLLOW_UP_QUESTION in r && r[FOLLOW_UP_QUESTION] == Str("")
    ensures !(Truthy(Get(m, COMPLETE, Null)) && Truthy(Get(m, NEEDS_FOLLOW_UP, Null))) ==> r == m
    ensures Truthy(Get(r, COMPLETE, Null)) ==> !Truthy(Get(r, NEEDS_FOLLOW_UP, Null))
    ensures forall k :: k != NEEDS_FOLLOW_UP && k != FOLLOW_UP_QUESTION ==> SameAt(m, r, k)
  {
    if Truthy(Get(m, COMPLETE, Null)) && Truthy(Get(m, NEEDS_FOLLOW_UP, Null)) then
      m[NEEDS_FOLLOW_UP := Bool(false)][FOLLOW_UP_QUESTION := Str("")]
    else
      m
  }

  /** `setdefault("Disclaimer", ...)`: an existing disclaimer, whatever its value, is kept. */
  function EnsureDisclaimer(m: map<string, Json>): (r: map<string, Json>)
    ensures DISCLAIMER in r
    ensures r[DISCLAIMER] == if DISCLAIMER in m then m[DISCLAIMER] else Str(STANDARD_DISCLAIMER)
    ensures forall k :: k != DISCLAIMER ==> SameAt(m, r, k)
  {
    if DISCLAIMER in m then m else m[DISCLAIMER := Str(STANDARD_DISCLAIMER)]
  }

  /**
   The three failsafes in the order the route applies them. The result never says both complete
   and needs-follow-up, is complete exactly when the answer was or the cap is reached, always has
   a disclaimer, is the answer itself apart from the disclaimer when neither failsafe fires, and
   agrees
   with the gateway's answer on every key the failsafes do not write.
   */
  function PostProcess(m: map<string, Json>, total: int): (r: map<string, Json>)
    ensures Truthy(Get(r, COMPLETE, Null)) ==> !Truthy(Get(r, NEEDS_FOLLOW_UP, Null))
    ensures Truthy(Get(r, COMPLETE, Null)) <==> Truthy(Get(m, COMPLETE, Null)) || total >= SESSION_CAP
    ensures DISCLAIMER in r
    ensures r[DISCLAIMER] == if DISCLAIMER in m then m[DISCLAIMER] else Str(STANDARD_DISCLAIMER)
    ensures forall k :: k !in WRITTEN ==> SameAt(m, r, k)
    ensures total < SESSION_CAP && !(Truthy(Get(m, COMPLETE, Null)) && Truthy(Get(m, NEEDS_FOLLOW_UP, Null))) ==>
      forall k :: k != DISCLAIMER ==> SameAt(m, r, k)
  {
    EnsureDisclaimer(FixConsistency(CapLength(m, total)))
  }

  /** The gateway's outcome turned into the reply. */
  function Finish(call: Call, outcome: Outcome): (r: Reply)
    ensures r.status == 200 <==> IsDictAnswer(outcome)
    ensures r.status != 200 ==> r.status == 500
    ensures Data(r).Some?
  {
    match outcome
    case Raised(f) => ErrorReply(f)
    case Returned(v) =>
      if v.Obj? then DataReply(200, PostProcess(v.fields, TotalMessages(call.history)))
      else ErrorReply(MALFORMED_ANSWER)
  }

  /** The reply for a validation verdict; only a forwarded turn consults the gateway. */
  function Respond(a: Admission, gateway: Call -> Outcome): (r: Reply)
    ensures r.status == 400 <==> a.Reject?
    ensures r.status == 200 <==> a.Restart? || (a.Forward? && IsDictAnswer(gateway(a.call)))
    ensures r.status == 500 <==> a.Crash? || (a.Forward? && !IsDictAnswer(gateway(a.call)))
    ensures Data(r).None? <==> a.Reject?
  {
    match a
    case Reject(why) => RejectCarriesNoData(why); RejectReply(why)
    case Restart => DataReply(200, RESTART_PAYLOAD)
    case Crash(f) => ErrorReply(f)
    case Forward(c) => Finish(c, gateway(c))
  }

  /** One POST to `/gemini-interactive` with the decoded JSON `body`. */
  function Handle(body: Json, gateway: Call -> Outcome): (r: Reply)
    ensures r.status == 400 <==> Admit(body).Reject?
    ensures r.status == 200 <==> Admit(body).Restart? || (Admit(body).Forward? && IsDictAnswer(gateway(Admit(body).call)))
    ensures r.status == 500 <==> Admit(body).Crash? || (Admit(body).Forward? && !IsDictAnswer(gateway(Admit(body).call)))
  {
    Respond(Admit(body), gateway)
  }

  // ----- Properties -----

  /** The request shapes the route rejects as the client's fault. */
  ghost predicate Malformed(body: Json) {
    || !Truthy(body)
    || (body.Obj? && MESSAGE !in body.fields)
    || (body.Obj? && MESSAGE in body.fields && body.fields[MESSAGE].Str? && !HistoryShapeOk(body.fields))
    || (body.Arr? && Str(MESSAGE) !in body.items)
    || (body.Str? && !Contains(body.s, MESSAGE))
  }

  /**
   Status 400 is returned exactly for the malformed shapes: an empty or missing body, no
   `message` key, or a history that is neither null nor a list. The gateway is not consulted.
   */
  lemma BadRequestIffMalformed(body: Json, gateway: Call -> Outcome)
    ensures Handle(body, gateway).status == 400 <==> Malformed(body)
    ensures Malformed(body) ==> Admit(body).Reject? && Data(Handle(body, gateway)).None?
  {
  }

  /** A request the gateway is not asked about gets the same reply whatever the gateway would do. */
  lemma GatewayOnlyWhenForwarded(body: Json, g1: Call -> Outcome, g2: Call -> Outcome)
    requires !Admit(body).Forward?
    ensures Handle(body, g1) == Handle(body, g2)
  {
  }

  /**
   The gateway is called exactly for a dictionary body with a string message and a well-shaped
   history whose message is not a restart command; it receives the stripped message and the list
   that was sent as history, if any.
   */
  lemma ForwardedIff(body: Json)
    ensures Admit(body).Forward? <==>
      && body.Obj? && MESSAGE in body.fields && body.fields[MESSAGE].Str?
      && HistoryShapeOk(body.fields)
      && !IsRestartCommand(Strip(body.fields[MESSAGE].s))
    ensures Admit(body).Forward? ==>
      && IsStripOf(body.fields[MESSAGE].s, Admit(body).call.message)
      && (Admit(body).call.history.Some? <==> HISTORY in body.fields && body.fields[HISTORY].Arr?)
      && (Admit(body).call.history.Some? ==> Admit(body).call.history.value == body.fields[HISTORY].items)
  {
    if Admit(body).Forward? {
      StripSpec(body.fields[MESSAGE].s);
    }
  }

  lemma RestartPayloadFacts()
    ensures RESTART_PAYLOAD[RESTARTED] == Bool(true)
    ensures RESTART_PAYLOAD[COMPLETE] == Bool(false)
    ensures RESTART_PAYLOAD[NEEDS_FOLLOW_UP] == Bool(false)
    ensures RESTART_PAYLOAD[FOLLOW_UP_QUESTION] == Str("")
    ensures RESTART_PAYLOAD[DISCLAIMER] == Str(STANDARD_DISCLAIMER)
  {
  }

  /**
   A restart command is answered with the canned payload (see RestartPayloadFacts), status 200,
   without calling the gateway.
   */
  lemma RestartShortCircuits(body: Json, gateway: Call -> Outcome)
    requires body.Obj? && MESSAGE in body.fields && body.fields[MESSAGE].Str?
    requires HistoryShapeOk(body.fields)
    requires IsRestartCommand(Strip(body.fields[MESSAGE].s))
    ensures Admit(body) == Restart
    ensures Handle(body, gateway).status == 200 && Data(Handle(body, gateway)) == Some(RESTART_PAYLOAD)
  {
  }

  /** Any capitalisation of a restart command, padded with any whitespace, restarts. */
  lemma RestartIgnoresCaseAndPadding(pre: string, word: string, post: string, rest: map<string, Json>)
    requires AllSpace(pre) && AllSpace(post)
    requires Lower(word) in RESTART_COMMANDS
    requires HistoryShapeOk(rest)
    ensures Admit(Obj(rest[MESSAGE := Str(pre + word + post)])) == Restart
  {
    var body := Obj(rest[MESSAGE := Str(pre + word + post)]);
    CommandEnds(Lower(word));
    LowerKeepsSpaces(word[0]);
    LowerKeepsSpaces(word[|word| - 1]);
    StripPadded(pre, word, post);
    assert body.fields[MESSAGE] == Str(pre + word + post);
    assert HistoryShapeOk(body.fields) by {
      assert Get(body.fields, HISTORY, Null) == Get(rest, HISTORY, Null);
    }
  }

  /** Every restart command is non-empty and starts and ends with a non-space. */
  lemma CommandEnds(w: string)
    requires w in RESTART_COMMANDS
    ensures w != [] && !IsSpace(w[0]) && !IsSpace(w[|w| - 1])
  {
  }

  /** The fallback payload's fields, for any exception. */
  lemma FallbackPayloadFacts(f: Fault)
    ensures var d := FallbackPayload(f);
      && d.Keys == {RESPONSE, NEEDS_FOLLOW_UP, FOLLOW_UP_QUESTION, IS_MEDICAL, IS_MEDICAL_PROMPT, CAN_STRUCTURE, COMPLETE, DISCLAIMER, ERROR}
      && d[COMPLETE] == Bool(true) && d[NEEDS_FOLLOW_UP] == Bool(false) && d[FOLLOW_UP_QUESTION] == Str("")
      && d[IS_MEDICAL] == Bool(true) && d[IS_MEDICAL_PROMPT] == Str("Yes") && d[CAN_STRUCTURE] == Bool(false)
      && d[DISCLAIMER] == Str(STANDARD_DISCLAIMER) && d[ERROR] == Str(f.detail)
  {
  }

  /**
   If the gateway raises, or answers with something other than a dictionary, the reply is the
   fallback payload with status 500: complete, no follow-up, medical, no structured response,
   the standard disclaimer and the exception's text under `error`.
   */
  lemma GatewayFailureFallsBack(body: Json, gateway: Call -> Outcome)
    requires Admit(body).Forward?
    requires gateway(Admit(body).call).Raised? || !gateway(Admit(body).call).value.Obj?
    ensures var o := gateway(Admit(body).call);
      var f := if o.Raised? then o.fault else MALFORMED_ANSWER;
      && Handle(body, gateway) == ErrorReply(f)
      && Handle(body, gateway).status == 500
      && Data(Handle(body, gateway)) == Some(FallbackPayload(f))
  {
  }

  /** The weak form of the completion invariant the route keeps: complete implies no follow-up. */
  ghost predicate Consistent(d: map<string, Json>) {
    Truthy(Get(d, COMPLETE, Null)) ==> !Truthy(Get(d, NEEDS_FOLLOW_UP, Null))
  }

  /** Whatever the gateway does, a forwarded turn ends in a consistent payload. */
  lemma FinishConsistent(c: Call, o: Outcome)
    ensures Finish(c, o).status != 400
    ensures Data(Finish(c, o)).Some? && Consistent(Data(Finish(c, o)).value)
  {
    match o
    case Raised(f) =>
      FallbackPayloadFacts(f);
    case Returned(v) =>
      if !v.Obj? {
        FallbackPayloadFacts(MALFORMED_ANSWER);
      }
  }

  /** Every reply that carries a payload satisfies: complete implies no follow-up needed. */
  lemma CompletionExcludesFollowUp(body: Json, gateway: Call -> Outcome)
    ensures Handle(body, gateway).status != 400 ==> Data(Handle(body, gateway)).Some?
    ensures Data(Handle(body, gateway)).Some? ==> Consistent(Data(Handle(body, gateway)).value)
  {
    RespondConsistent(Admit(body), gateway);
  }

  /** Whatever the verdict, a reply with a payload has a consistent one. */
  lemma RespondConsistent(a: Admission, gateway: Call -> Outcome)
    ensures Respond(a, gateway).status != 400 ==> Data(Respond(a, gateway)).Some?
    ensures Data(Respond(a, gateway)).Some? ==> Consistent(Data(Respond(a, gateway)).value)
  {
    match a
    case Reject(why) =>
      RejectCarriesNoData(why);
    case Restart =>
      RestartConsistent(gateway);
    case Crash(f) =>
      FallbackConsistent(f, gateway);
    case Forward(c) =>
      FinishConsistent(c, gateway(c));
  }

  lemma RestartConsistent(gateway: Call -> Outcome)
    ensures Data(Respond(Restart, gateway)) == Some(RESTART_PAYLOAD) && Consistent(RESTART_PAYLOAD)
  {
    RestartPayloadFacts();
  }

  lemma FallbackConsistent(f: Fault, gateway: Call -> Outcome)
    ensures Data(Respond(Crash(f), gateway)) == Some(FallbackPayload(f)) && Consistent(FallbackPayload(f))
  {
    FallbackPayloadFacts(f);
  }

  /**
   A forwarded turn whose history already holds 99 or more messages comes back complete, whatever
   the gateway does.
   */
  lemma LongSessionEndsComplete(body: Json, gateway: Call -> Outcome)
    requires body.Obj? && MESSAGE in body.fields && body.fields[MESSAGE].Str?
    requires !IsRestartCommand(Strip(body.fields[MESSAGE].s))
    requires HISTORY in body.fields && body.fields[HISTORY].Arr?
    requires |body.fields[HISTORY].items| + 1 >= SESSION_CAP
    ensures var d := Data(Handle(body, gateway)); d.Some? && Truthy(Get(d.value, COMPLETE, Null))
  {
    var c := Call(Strip(body.fields[MESSAGE].s), HistoryOf(body.fields));
    assert Admit(body) == Forward(c);
    FinishCompletion(c, gateway(c));
  }

  /** How a forwarded turn's completion follows from the answer and the history length. */
  lemma FinishCompletion(c: Call, o: Outcome)
    ensures var d := Data(Finish(c, o));
      && d.Some?
      && (IsDictAnswer(o) ==>
            (Truthy(Get(d.value, COMPLETE, Null)) <==>
               Truthy(Get(o.value.fields, COMPLETE, Null)) || TotalMessages(c.history) >= SESSION_CAP))
      && (!IsDictAnswer(o) ==> Truthy(Get(d.value, COMPLETE, Null)))
  {
    if !IsDictAnswer(o) {
      FallbackPayloadFacts(if o.Raised? then o.fault else MALFORMED_ANSWER);
    }
  }

  /**
   For a forwarded turn answered with a dictionary, the reply is complete exactly when the answer
   was, or when the history already holds 99 or more entries.
   */
  lemma CompletionFollowsCap(body: Json, gateway: Call -> Outcome)
    requires body.Obj? && MESSAGE in body.fields && body.fields[MESSAGE].Str?
    requires HistoryShapeOk(body.fields) && !IsRestartCommand(Strip(body.fields[MESSAGE].s))
    requires IsDictAnswer(gateway(Call(Strip(body.fields[MESSAGE].s), HistoryOf(body.fields))))
    ensures var d := Data(Handle(body, gateway));
      var answer := gateway(Call(Strip(body.fields[MESSAGE].s), HistoryOf(body.fields))).value.fields;
      var history := Get(body.fields, HISTORY, Null);
      && d.Some?
      && (Truthy(Get(d.value, COMPLETE, Null)) <==>
            Truthy(Get(answer, COMPLETE, Null)) || (history.Arr? && |history.items| + 1 >= SESSION_CAP))
  {
    var c := Call(Strip(body.fields[MESSAGE].s), HistoryOf(body.fields));
    assert Admit(body) == Forward(c);
    FinishCompletion(c, gateway(c));
  }

  /**
   Every payload has a disclaimer. A processed gateway answer keeps the disclaimer it came with;
   every other payload has the standard one.
   */
  lemma DisclaimerAlwaysPresent(body: Json, gateway: Call -> Outcome)
    ensures var r := Handle(body, gateway);
      r.status != 400 ==> Data(r).Some? && DISCLAIMER in Data(r).value
    ensures var r := Handle(body, gateway);
      Admit(body).Forward? && gateway(Admit(body).call).Returned? && gateway(Admit(body).call).value.Obj? ==>
        var m := gateway(Admit(body).call).value.fields;
        Data(r).value[DISCLAIMER] == if DISCLAIMER in m then m[DISCLAIMER] else Str(STANDARD_DISCLAIMER)
    ensures var r := Handle(body, gateway);
      r.status != 400 && !(Admit(body).Forward? && gateway(Admit(body).call).Returned? && gateway(Admit(body).call).value.Obj?) ==>
        Data(r).value[DISCLAIMER] == Str(STANDARD_DISCLAIMER)
  {
  }

  /**
   A dictionary answer is returned with status 200 and, apart from the keys the failsafes write,
   exactly as the gateway gave it: `Symptoms`, `Remedies`, `medication` and the rest pass through.
   */
  lemma AnswerPassesThrough(body: Json, gateway: Call -> Outcome)
    requires Admit(body).Forward?
    requires gateway(Admit(body).call).Returned? && gateway(Admit(body).call).value.Obj?
    ensures var r := Handle(body, gateway);
      && r.status == 200 && Data(r).Some?
      && forall k :: k !in WRITTEN ==> SameAt(gateway(Admit(body).call).value.fields, Data(r).value, k)
  {
  }

  /**
   When the cap forces completion, the final payload is complete with no follow-up and an empty
   question; it can give a structured response unless it says it is not medical, in which case
   that key is left as the gateway gave it.
   */
  lemma CapForcesCompletion(m: map<string, Json>, total: int)
    requires total >= SESSION_CAP && !Truthy(Get(m, COMPLETE, Bool(false)))
    ensures var r := PostProcess(m, total);
      && COMPLETE in r && r[COMPLETE] == Bool(true)
      && NEEDS_FOLLOW_UP in r && r[NEEDS_FOLLOW_UP] == Bool(false)
      && FOLLOW_UP_QUESTION in r && r[FOLLOW_UP_QUESTION] == Str("")
      && (Truthy(Get(m, IS_MEDICAL, Bool(true))) ==> CAN_STRUCTURE in r && r[CAN_STRUCTURE] == Bool(true))
      && (!Truthy(Get(m, IS_MEDICAL, Bool(true))) ==> SameAt(m, r, CAN_STRUCTURE))
  {
    var c := CapLength(m, total);
    assert !Truthy(Get(c, NEEDS_FOLLOW_UP, Null));
    assert FixConsistency(c) == c;
  }

  /**
   Below the cap, an answer that does not claim both complete and needs-follow-up is relayed as the
   gateway gave it, apart from a missing disclaimer: its follow-up request, question and
   structured-response flag pass through.
   */
  lemma QuietTurnPassesThrough(body: Json, gateway: Call -> Outcome)
    requires Admit(body).Forward? && IsDictAnswer(gateway(Admit(body).call))
    requires TotalMessages(Admit(body).call.history) < SESSION_CAP
    requires var m := gateway(Admit(body).call).value.fields;
      !(Truthy(Get(m, COMPLETE, Null)) && Truthy(Get(m, NEEDS_FOLLOW_UP, Null)))
    ensures var r := Handle(body, gateway);
      && r.status == 200 && Data(r).Some?
      && forall k :: k != DISCLAIMER ==> SameAt(gateway(Admit(body).call).value.fields, Data(r).value, k)
  {
  }

  /**
   When the cap fires on a forwarded turn, the reply is complete with no follow-up and an empty
   question, and can give a structured response unless the answer says it is not medical.
   */
  lemma CapForcesCompletionOnRoute(body: Json, gateway: Call -> Outcome)
    requires Admit(body).Forward? && IsDictAnswer(gateway(Admit(body).call))
    requires TotalMessages(Admit(body).call.history) >= SESSION_CAP
    requires !Truthy(Get(gateway(Admit(body).call).value.fields, COMPLETE, Bool(false)))
    ensures var m := gateway(Admit(body).call).value.fields;
      var r := Handle(body, gateway);
      && r.status == 200 && Data(r).Some?
      && var d := Data(r).value;
      && COMPLETE in d && d[COMPLETE] == Bool(true)
      && NEEDS_FOLLOW_UP in d && d[NEEDS_FOLLOW_UP] == Bool(false)
      && FOLLOW_UP_QUESTION in d && d[FOLLOW_UP_QUESTION] == Str("")
      && (Truthy(Get(m, IS_MEDICAL, Bool(true))) ==> CAN_STRUCTURE in d && d[CAN_STRUCTURE] == Bool(true))
      && (!Truthy(Get(m, IS_MEDICAL, Bool(true))) ==> SameAt(m, d, CAN_STRUCTURE))
  {
    var c := Admit(body).call;
    CapForcesCompletion(gateway(c).value.fields, TotalMessages(c.history));
  }

  /** A message of only whitespace is not rejected: the gateway is called with the empty string. */
  lemma BlankMessageForwarded(blank: string)
    requires AllSpace(blank)
    ensures Admit(Obj(map[MESSAGE := Str(blank)])) == Forward(Call("", None))
  {
    var body := Obj(map[MESSAGE := Str(blank)]);
    StripAllSpace(blank);
    assert MESSAGE in body.fields;
    assert HistoryShapeOk(body.fields) && HistoryOf(body.fields) == None;
    assert !IsRestartCommand("") by {
      assert Lower("") == "";
    }
  }

  /** A complete answer that does not ask for a follow-up keeps its follow-up question. */
  lemma CompleteAnswerKeepsQuestion(q: string)
    ensures var m := map[COMPLETE := Bool(true), NEEDS_FOLLOW_UP := Bool(false), FOLLOW_UP_QUESTION := Str(q)];
      PostProcess(m, 1)[FOLLOW_UP_QUESTION] == Str(q)
  {
  }

  /** An empty disclaimer supplied by the gateway is kept, not replaced. */
  lemma EmptyDisclaimerKept(m: map<string, Json>, total: int)
    requires DISCLAIMER in m && m[DISCLAIMER] == Str("")
    ensures PostProcess(m, total)[DISCLAIMER] == Str("")
  {
  }

}

=== FILE: json.dfy ===
/**
 This module models the values the service exchanges: request bodies decoded from JSON, the
 dictionaries returned by the language-model gateway, and the payloads handed to `jsonify`.
 Python's json module decodes integers to `int` and numbers with a fraction or exponent to
 `float`, so the two are kept apart.
 */
module Json {

  datatype Json =
    | Null
    | Bool(b: bool)
    | Int(i: int)
    | Float(x: real)
    | Str(s: string)
    | Arr(items: seq<Json>)
    | Obj(fields: map<string, Json>)

  /** Python truthiness of a decoded value, as used by `if not v` and by `and`. */
  predicate Truthy(v: Json) {
    match v
    case Null => false
    case Bool(b) => b
    case Int(i) => i != 0
    case Float(x) => x != 0.0
    case Str(s) => s != ""
    case Arr(a) => a != []
    case Obj(m) => m != map[]
  }

  /** `d.get(key, default)` on a dictionary. */
  function Get(m: map<string, Json>, key: string, default: Json): Json {
    if key in m then m[key] else default
  }

  /** The name Python reports for the type of a decoded value, as in `type(v).__name__`. */
  function TypeName(v: Json): string {
    match v
    case Null => "NoneType"
    case Bool(_) => "bool"
    case Int(_) => "int"
    case Float(_) => "float"
    case Str(_) => "str"
    case Arr(_) => "list"
    case Obj(_) => "dict"
  }

  /** Key `k` is absent from both maps or bound to the same value in both. */
  ghost predicate SameAt(m: map<string, Json>, m': map<string, Json>, k: string) {
    (k in m <==> k in m') && (k in m ==> m[k] == m'[k])
  }
}

=== FILE: service.dfy ===
/**
 What the routes share: the standard disclaimer, the shape of an HTTP reply, and the way a call
 into an external collaborator (the language-model gateway or the image lookup) can end.
 */
module Service {
  import opened Wrappers
  import opened Json

  /**
   The disclaimer attached to every fallback payload. The helper module that normally exports it is
   not part of this model; this is the text the service defines when that import fails.
   */
  const STANDARD_DISCLAIMER: string :=
    "I am an AI chatbot, not a substitute for professional medical advice... Always seek the advice of your physician..."

  // Payload keys more than one route writes.
  const RESPONSE: string := "response"
  const DISCLAIMER: string := "Disclaimer"
  const IS_MEDICAL_PROMPT: string := "is_medical_related_prompt"
  const ERROR: string := "error"

  /** A Python exception: the name of its class and its `str()`. */
  datatype Fault = Fault(kind: string, detail: string)

  /** How a collaborator call ended: it returned a value, or it raised. */
  datatype Outcome = Returned(value: Json) | Raised(fault: Fault)

  /** The collaborator answered with a dictionary. */
  predicate IsDictAnswer(o: Outcome) {
    o.Returned? && o.value.Obj?
  }

  /** An HTTP response: the status code and the JSON body given to `jsonify`. */
  datatype Reply = Reply(status: int, body: Json)

  /** `jsonify({"data": payload}), status`. */
  function DataReply(status: int, payload: map<string, Json>): Reply {
    Reply(status, Obj(map["data" := Obj(payload)]))
  }

  /** The dictionary a reply carries under "data", if it carries one. */
  function Data(r: Reply): Option<map<string, Json>> {
    if r.body.Obj? && "data" in r.body.fields && r.body.fields["data"].Obj? then
      Some(r.body.fields["data"].fields)
    else
      None
  }
}

=== FILE: single_turn.dfy ===
/**
 The two single-turn routes, `/gemini/<data>` (free text) and `/gemini_generic/<data>`
 (classification). Each rejects an empty path segment with status 400 without calling the
 gateway, relays a dictionary answer unchanged, and replaces an exception or an unusable answer
 by a fixed payload with status 500.
 */
module SingleTurn {
  import opened Wrappers
  import opened Json
  import opened Service

  const SYMPTOMS: string := "Symptoms"
  const MEDICATION: string := "medication"

  /** The prefix of the free-text route's error response; the exception's text follows it. */
  const SORRY: string := "Sorry, an error occurred processing your request: "

  /** The reply to an empty prompt on the free-text route. */
  const EMPTY_PROMPT: Reply :=
    DataReply(400, map[RESPONSE := Str("No input data provided."), DISCLAIMER := Str(STANDARD_DISCLAIMER)])

  /** The reply to an empty prompt on the classification route. */
  const EMPTY_CLASSIFICATION: Reply :=
    DataReply(400, map[IS_MEDICAL_PROMPT := Str("No"), DISCLAIMER := Str(STANDARD_DISCLAIMER), ERROR := Str("No input data")])

  /** The exceptions the routes raise themselves when the gateway's answer has the wrong shape. */
  const BAD_TEXT_ANSWER: Fault := Fault("TypeError", "Invalid response type from gemini_text")
  const BAD_CLASSIFICATION: Fault := Fault("TypeError", "Invalid response type from gemini_generic")

  /** The free-text route's payload for an exception. */
  function TextError(f: Fault): Reply {
    DataReply(500, map[RESPONSE := Str(SORRY + f.detail), DISCLAIMER := Str(STANDARD_DISCLAIMER)])
  }

  /** The classification route's default payload for an exception: not medical, nothing found. */
  function DefaultClassification(f: Fault): Reply {
    DataReply(500, map[
      SYMPTOMS := Str("."),
      "Remedies" := Str(""),
      "Precautions" := Str(""),
      "Guidelines" := Str(""),
      IS_MEDICAL_PROMPT := Str("No"),
      MEDICATION := Arr([]),
      DISCLAIMER := Str(STANDARD_DISCLAIMER),
      ERROR := Str("An error occurred: " + f.detail)])
  }

  /** The gateway answered with a dictionary that carries the classification. */
  predicate IsClassification(o: Outcome) {
    IsDictAnswer(o) && IS_MEDICAL_PROMPT in o.value.fields
  }

  /**
   GET `/gemini/<data>`. An empty prompt is refused without calling the gateway; a dictionary
   answer is relayed as it is; anything else gives the apology with the exception's text.
   */
  function PromptRoute(data: string, gateway: string -> Outcome): (r: Reply)
    ensures r.status == 400 <==> data == ""
    ensures data == "" ==> r == EMPTY_PROMPT
    ensures r.status == 200 <==> data != "" && IsDictAnswer(gateway(data))
    ensures r.status == 500 <==> data != "" && !IsDictAnswer(gateway(data))
    ensures r.status == 200 ==> Data(r) == Some(gateway(data).value.fields)
    ensures r.status == 500 ==>
      var f := if gateway(data).Raised? then gateway(data).fault else BAD_TEXT_ANSWER;
      Data(r) == Some(map[RESPONSE := Str(SORRY + f.detail), DISCLAIMER := Str(STANDARD_DISCLAIMER)])
  {
    if data == "" then
      EMPTY_PROMPT
    else
      match gateway(data)
      case Returned(v) => if v.Obj? then DataReply(200, v.fields) else TextError(BAD_TEXT_ANSWER)
      case Raised(f) => TextError(f)
  }

  /**
   GET `/gemini_generic/<data>`. An empty prompt is refused without calling the gateway; an answer
   that is a dictionary holding `is_medical_related_prompt` is relayed as it is; anything else
   gives the default classification with status 500. Every payload carries a classification.
   */
  function GenericRoute(data: string, gateway: string -> Outcome): (r: Reply)
    ensures r.status == 400 <==> data == ""
    ensures data == "" ==> r == EMPTY_CLASSIFICATION
    ensures r.status == 200 <==> data != "" && IsClassification(gateway(data))
    ensures r.status == 500 <==> data != "" && !IsClassification(gateway(data))
    ensures r.status == 200 ==> Data(r) == Some(gateway(data).value.fields)
    ensures Data(r).Some? && IS_MEDICAL_PROMPT in Data(r).value
    ensures r.status != 200 ==>
      && Data(r).value[IS_MEDICAL_PROMPT] == Str("No")
      && DISCLAIMER in Data(r).value && Data(r).value[DISCLAIMER] == Str(STANDARD_DISCLAIMER)
    ensures r.status == 500 ==>
      && SYMPTOMS in Data(r).value && Data(r).value[SYMPTOMS] == Str(".")
      && MEDICATION in Data(r).value && Data(r).value[MEDICATION] == Arr([])
      && ERROR in Data(r).value
    ensures r.status == 500 ==>
      var f := if gateway(data).Raised? then gateway(data).fault else BAD_CLASSIFICATION;
      Data(r) == Some(map[
        SYMPTOMS := Str("."), "Remedies" := Str(""), "Precautions" := Str(""), "Guidelines" := Str(""),
        IS_MEDICAL_PROMPT := Str("No"), MEDICATION := Arr([]), DISCLAIMER := Str(STANDARD_DISCLAIMER),
        ERROR := Str("An error occurred: " + f.detail)])
  {
    if data == "" then
      EMPTY_CLASSIFICATION
    else
      match gateway(data)
      case Returned(v) =>
        if v.Obj? && IS_MEDICAL_PROMPT in v.fields then DataReply(200, v.fields)
        else DefaultClassification(BAD_CLASSIFICATION)
      case Raised(f) => DefaultClassification(f)
  }
}

=== FILE: text.dfy ===
/**
 This module models the Python string operations the routes apply to client text: `str.strip()`,
 `str.lower()` as far as the restart commands can tell, substring membership (`sub in s`) and
 `str.replace(' ', '-')`.
 */
module Text {

  /** The characters `str.isspace()` accepts, which are the ones `str.strip()` removes. */
  predicate IsSpace(c: char) {
    || c == ' '
    || ('\t' <= c <= '\r')
    || ('\U{1C}' <= c <= '\U{1F}')
    || c == '\U{85}' || c == '\U{A0}' || c == '\U{1680}'
    || ('\U{2000}' <= c <= '\U{200A}')
    || c == '\U{2028}' || c == '\U{2029}' || c == '\U{202F}' || c == '\U{205F}' || c == '\U{3000}'
  }

  ghost predicate AllSpace(s: string) {
    forall i :: 0 <= i < |s| ==> IsSpace(s[i])
  }

  /** Removes the leading whitespace. */
  function TrimStart(s: string): string
    decreases |s|
  {
    if |s| > 0 && IsSpace(s[0]) then TrimStart(s[1..]) else s
  }

  /** Removes the trailing whitespace. */
  function TrimEnd(s: string): string
    decreases |s|
  {
    if |s| > 0 && IsSpace(s[|s| - 1]) then TrimEnd(s[..|s| - 1]) else s
  }

  /** `str.strip()` with no argument. */
  function Strip(s: string): string {
    TrimEnd(TrimStart(s))
  }

  /** What TrimStart leaves is a suffix that starts with a non-space, after nothing but whitespace. */
  lemma {:induction false} TrimStartSpec(s: string)
    ensures var r := TrimStart(s);
      && |r| <= |s| && r == s[|s| - |r|..]
      && AllSpace(s[..|s| - |r|])
      && (r == [] || !IsSpace(r[0]))
    decreases |s|
  {
    if |s| > 0 && IsSpace(s[0]) {
      TrimStartSpec(s[1..]);
      var r := TrimStart(s[1..]);
      assert s[..|s| - |r|] == [s[0]] + s[1..][..|s| - 1 - |r|];
    }
  }

  /** What TrimEnd leaves is a prefix that ends with a non-space, before nothing but whitespace. */
  lemma {:induction false} TrimEndSpec(s: string)
    ensures var r := TrimEnd(s);
      && |r| <= |s| && r == s[..|r|]
      && AllSpace(s[|r|..])
      && (r == [] || !IsSpace(r[|r| - 1]))
    decreases |s|
  {
    if |s| > 0 && IsSpace(s[|s| - 1]) {
      TrimEndSpec(s[..|s| - 1]);
      var r := TrimEnd(s[..|s| - 1]);
      assert s[|r|..] == s[..|s| - 1][|r|..] + [s[|s| - 1]];
    }
  }

  /** `t` occurs in `s` at offset `i`, with nothing but whitespace before and after it. */
  ghost predicate PaddedAt(s: string, t: string, i: int) {
    0 <= i <= |s| - |t| && t == s[i..i + |t|] && AllSpace(s[..i]) && AllSpace(s[i + |t|..])
  }

  /** `t` is `s` with its leading and trailing whitespace cut off. */
  ghost predicate IsStripOf(s: string, t: string) {
    && (t == [] || (!IsSpace(t[0]) && !IsSpace(t[|t| - 1])))
    && exists i :: PaddedAt(s, t, i)
  }

  /** Strip cuts off exactly the surrounding whitespace. */
  lemma StripSpec(s: string)
    ensures IsStripOf(s, Strip(s))
  {
    var a := TrimStart(s);
    var r := TrimEnd(a);
    TrimStartSpec(s);
    TrimEndSpec(a);
    var i := |s| - |a|;
    assert s[i + |r|..] == a[|r|..];
    assert r == s[i..i + |r|];
    assert PaddedAt(s, r, i);
  }

  /** Leading whitespace before a text that starts with a non-space is exactly what TrimStart drops. */
  lemma {:induction false} TrimStartPadded(p: string, x: string)
    requires AllSpace(p)
    requires x == [] || !IsSpace(x[0])
    ensures TrimStart(p + x) == x
    decreases |p|
  {
    if p != [] {
      assert (p + x)[1..] == p[1..] + x;
      TrimStartPadded(p[1..], x);
    } else {
      assert p + x == x;
    }
  }

  /** Trailing whitespace after a text that ends with a non-space is exactly what TrimEnd drops. */
  lemma {:induction false} TrimEndPadded(x: string, q: string)
    requires AllSpace(q)
    requires x == [] || !IsSpace(x[|x| - 1])
    ensures TrimEnd(x + q) == x
    decreases |q|
  {
    if q != [] {
      assert (x + q)[..|x + q| - 1] == x + q[..|q| - 1];
      TrimEndPadded(x, q[..|q| - 1]);
    } else {
      assert x + q == x;
    }
  }

  /** Stripping a padded word gives the word back, whatever the padding. */
  lemma StripPadded(p: string, w: string, q: string)
    requires AllSpace(p) && AllSpace(q)
    requires w != [] && !IsSpace(w[0]) && !IsSpace(w[|w| - 1])
    ensures Strip(p + w + q) == w
  {
    assert p + w + q == p + (w + q);
    TrimStartPadded(p, w + q);
    TrimEndPadded(w, q);
  }

  /** A text of nothing but whitespace strips to the empty string. */
  lemma StripAllSpace(s: string)
    requires AllSpace(s)
    ensures Strip(s) == ""
  {
    TrimStartPadded(s, []);
    assert s + [] == s;
  }

  /** Stripping twice is stripping once. */
  lemma StripIdempotent(s: string)
    ensures Strip(Strip(s)) == Strip(s)
  {
    var t := Strip(s);
    StripSpec(s);
    if t != [] {
      StripPadded([], t, []);
      assert [] + t + [] == t;
    }
  }

  /** `str.lower()` on one character, restricted to the ASCII letters. */
  function LowerChar(c: char): char {
    if 'A' <= c <= 'Z' then (c as int + 32) as char else c
  }

  /** `str.lower()`, character by character. */
  function Lower(s: string): (r: string)
    ensures |r| == |s|
    ensures forall i :: 0 <= i < |s| ==> r[i] == LowerChar(s[i])
  {
    if s == [] then [] else [LowerChar(s[0])] + Lower(s[1..])
  }

  /** Lowering never turns a non-space into whitespace or back, so it keeps a word's boundaries. */
  lemma LowerKeepsSpaces(c: char)
    ensures IsSpace(LowerChar(c)) <==> IsSpace(c)
  {
  }

  /** `sub` occurs in `s` starting at offset `i`. */
  ghost predicate OccursAt(s: string, sub: string, i: int) {
    0 <= i <= |s| - |sub| && s[i..i + |sub|] == sub
  }

  /** Python's `sub in s` on strings. */
  function Contains(s: string, sub: string): (b: bool)
    ensures b <==> exists i :: OccursAt(s, sub, i)
    decreases |s|
  {
    if |sub| <= |s| && s[..|sub|] == sub then
      assert OccursAt(s, sub, 0);
      true
    else if |s| == 0 then
      false
    else
      var b := Contains(s[1..], sub);
      assert forall i :: OccursAt(s, sub, i) ==> i == 0 || OccursAt(s[1..], sub, i - 1);
      assert forall i :: OccursAt(s[1..], sub, i) ==> OccursAt(s, sub, i + 1);
      b
  }

  /** `s.replace(' ', '-')`: only the ASCII space is replaced. */
  function ReplaceSpaces(s: string): (r: string)
    ensures |r| == |s|
    ensures forall i :: 0 <= i < |s| ==> r[i] == (if s[i] == ' ' then '-' else s[i])
  {
    if s == [] then [] else [if s[0] == ' ' then '-' else s[0]] + ReplaceSpaces(s[1..])
  }
}

=== FILE: wrappers.dfy ===
/** The Some/None datatype used where the service treats a value as optional. */
module Wrappers {

  datatype Option<+T> = None | Some(value: T)
}
